=== FILE: README.md ===
# Bounding-box editor dialog: verified model

This project models the box logic behind CloudCompare's `ccBoundingBoxEditorDlg`.
That is the dialog in which a user edits an axis-aligned 3D bounding box. The user
enters a pivot point (the min corner, the center or the max corner, chosen in a
combo box) and three non-negative widths. A "keep square" option forces the box to
be a cube. When a valid base box is set, the dialog is meant to disable OK and
show a warning whenever the current box no longer encloses the base box. The
program as written keeps half of this promise outside Cancel: OK is never left
enabled on a box that excludes the base box. Only Cancel can do that.
Switching square mode on can only leave OK disabled on a box that does enclose
the base box (see "## Findings").

Modules:

- `Vector` (`vector.dfy`): `Vec3`, the stand-in for `CCVector3`, over exact reals.
- `BBox` (`bbox.dfy`): `Box`, the stand-in for `ccBBox`. It has a min corner, a
  max corner and a validity flag. It also defines the center, the diagonal vector,
  inclusive containment and enclosure.
- `PivotGeometry` (`geometry.dfy`): the arithmetic of the dialog.
  - Building a box from a pivot point and widths (`updateCurrentBBox`).
  - Reading a box back into the six spin-box values (`reflectChanges`).
  - The `MakeSquare` helper.
  - The inclusion test (`checkBaseInclusion`).
- `Dialog` (`dialog.dfy`): the dialog state (`State`) and its slots. The state holds the
  current, initial and base boxes, the six spin-box values, the pivot type, the
  keep-square flag and the enabled state of OK. Each slot is a pure state
  transition. `Step` and `Run` drive the dialog with a sequence of user and
  application events. `Slots` selects the dispatch. With `AsWritten` the events
  reach the program's own slots. With `Corrected`, the keep-square check box and
  Cancel reach the corrected slots listed under "## Findings". The dialog's
  consistency comes in two halves:
  - `Displayed`: the spin boxes show the current box, and square mode implies
    a cube. The program keeps this through every event but Cancel.
  - `Inv`: `Displayed`, and OK is enabled exactly when the base box is invalid
    or both of its corners are inside the current box. The corrected dialog
    keeps this through every event. The program itself loses it when square
    mode is switched on and on Cancel.
  - `OkSafe`: `Displayed`, and OK enabled only when the base box is invalid or
    enclosed. The program keeps this through every event but Cancel.

`ccBBox` belongs to a library that is not part of this model. The model assumes the
following about it:

- the two-corner constructor stores the corners as given and marks the box valid;
- `getCenter` is `(min + max) / 2`;
- `getDiagVec` is `max - min`;
- `inside` is inclusive containment, component by component;
- a default-constructed box is invalid, with both corners at the origin.

The width spin boxes have a minimum of 0 (`qCC/ccBoundingBoxEditorDlg.cpp:35-37`).
Writing a negative extent into them therefore shows 0, and `Reflect` clamps.
Because of that, the round trip from box to values and back is exact only for
well-formed boxes, whose min corner is nowhere above the max corner.

## Model

| member | source | states |
|---|---|---|
| `Vector.ClampToZero` | qCC/ccBoundingBoxEditorDlg.cpp:35-40 | a width spin box (minimum 0) shows each non-negative component unchanged and each negative one as 0, so it never shows a negative value |
| `BBox.CornersDecideEnclosure` | qCC/ccBoundingBoxEditorDlg.cpp:146 | for a well-formed box, having both corners inside another box is equivalent to the whole box being inside it |
| `PivotGeometry.BoxFromPivot` | qCC/ccBoundingBoxEditorDlg.cpp:221-244 | the box built from point A and widths W is valid, has diagonal exactly W, and has A as its min corner, center or max corner for pivot type 0, 1 or 2; non-negative widths give a well-formed box |
| `PivotGeometry.Reflect` | qCC/ccBoundingBoxEditorDlg.cpp:251-306 | the displayed point is the box's pivot point (min corner, center or max corner) for every box, valid or not; each displayed width is that axis's extent when it is non-negative and 0 when it is negative, so a well-formed box shows its diagonal and a cube shows equal widths; rebuilding from the displayed values gives back any valid well-formed box |
| `PivotGeometry.ReflectInvertsBoxFromPivot` | qCC/ccBoundingBoxEditorDlg.cpp:221-306 | for non-negative widths, building the box from (A, W) and reading it back with the same pivot type returns exactly A and W |
| `PivotGeometry.LargestAxis` | qCC/ccBoundingBoxEditorDlg.cpp:69-77 | the chosen axis has a width at least as large as every axis, and no earlier axis has that width (ties go to the lowest index) |
| `PivotGeometry.SquareSide` | qCC/ccBoundingBoxEditorDlg.cpp:69-79 | the cube side is the largest width when defaultDim is negative, and otherwise the width along defaultDim |
| `PivotGeometry.MakeSquare` | qCC/ccBoundingBoxEditorDlg.cpp:61-102 | the result is a cube whose side is the chosen side, with the pivot (min corner, center or max corner) kept in place; a cube is returned unchanged, and any other box is rebuilt as a valid box; well-formedness is kept |
| `PivotGeometry.MakeSquareIdempotent` | qCC/ccBoundingBoxEditorDlg.cpp:66-67 | squaring an already squared box changes nothing, whatever axis the second call imposes |
| `PivotGeometry.MakeSquareOnLargestEncloses` | qCC/ccBoundingBoxEditorDlg.cpp:69-100 | squaring a well-formed box on its largest width gives a box that encloses the original |
| `PivotGeometry.InclusionOk` | qCC/ccBoundingBoxEditorDlg.cpp:141-151 | OK is enabled when the base box is invalid; otherwise it is enabled iff both base corners are inside the current box |
| `PivotGeometry.InclusionOkIffEnclosed` | qCC/ccBoundingBoxEditorDlg.cpp:141-151 | for a valid well-formed base box, OK is enabled iff the current box encloses all of it |
| `Dialog.Initial` | qCC/ccBoundingBoxEditorDlg.cpp:20-58 | the constructed dialog is consistent and OK is enabled |
| `Dialog.CheckBaseInclusion` | qCC/ccBoundingBoxEditorDlg.cpp:141-151 | OK is enabled iff the base box is invalid or both of its corners are inside the current box; nothing else changes |
| `Dialog.ReflectChanges` | qCC/ccBoundingBoxEditorDlg.cpp:251-312 | the spin boxes show the pivot point of the current box and, for a well-formed box, its diagonal; nothing else changes |
| `Dialog.UpdateCurrentBBox` | qCC/ccBoundingBoxEditorDlg.cpp:221-249 | the new current box has the displayed point as its pivot and the displayed widths as its diagonal; OK is re-evaluated only when the base box is valid |
| `Dialog.UpdateWidth` | qCC/ccBoundingBoxEditorDlg.cpp:182-219 | in square mode the box becomes a cube whose side is the width just edited on that axis (x, y, z = 0, 1, 2), the spin boxes show the squared box, and OK is re-evaluated against it when the base box is valid (and left alone otherwise); outside square mode it is a plain rebuild; the pivot point is the displayed one |
| `Dialog.SquareModeActivated` | qCC/ccBoundingBoxEditorDlg.cpp:116-123 | switching square on makes the box a cube of the largest width about its pivot and makes the spin boxes show it, but leaves OK untouched (as written) |
| `Dialog.SquareModeActivatedRechecked` | qCC/ccBoundingBoxEditorDlg.cpp:116-123 | switching square on makes the box a cube of the largest width about its pivot, makes the spin boxes show it, and re-evaluates OK against it (corrected) |
| `Dialog.Refresh` | qCC/ccBoundingBoxEditorDlg.cpp:157-162 | after a box replacement the dialog is consistent; in square mode the box is squared on its largest width about the pivot, so it is left as is when square mode is off or it already is a cube |
| `Dialog.Reset` | qCC/ccBoundingBoxEditorDlg.cpp:153-163 | the current box becomes the base box, squared on its largest width in square mode, and the dialog is consistent |
| `Dialog.SetBaseBBox` | qCC/ccBoundingBoxEditorDlg.cpp:132-139 | base and initial box both become the given box; the current box becomes that box, squared on its largest width in square mode; the dialog is consistent |
| `Dialog.SetBaseBBoxEnablesOk` | qCC/ccBoundingBoxEditorDlg.cpp:132-163 | right after setting an invalid or well-formed base box, OK is enabled |
| `Dialog.Exec` | qCC/ccBoundingBoxEditorDlg.cpp:165-172 | the initial box becomes the current box; nothing else changes |
| `Dialog.Cancel` | qCC/ccBoundingBoxEditorDlg.cpp:174-180 | the current box becomes the initial box; nothing else changes (as written) |
| `Dialog.CancelRefreshed` | qCC/ccBoundingBoxEditorDlg.cpp:174-180 | the current box becomes the initial box, squared on its largest width about the pivot in square mode, and the dialog is consistent (corrected) |
| `Dialog.Step` | qCC/ccBoundingBoxEditorDlg.cpp:42-54 | dispatches each widget signal, and each `forceKeepSquare` call (lines 109-114), to its slot. With `AsWritten` these are the program's slots; with `Corrected`, the keep-square check box and Cancel reach the corrected slots. The pivot type stays a combo-box index, and only `exec` and `setBaseBBox` change the initial box |
| `Dialog.Run` | qCC/ccBoundingBoxEditorDlg.cpp:42-54 | applies a dialog session's events in order, each through the slot its signal is connected to; the pivot type stays a combo-box index |
| `Dialog.StepDispatchesAlike` | qCC/ccBoundingBoxEditorDlg.cpp:42-54 | the two dispatches differ only on the keep-square check box, `forceKeepSquare` and Cancel |
| `Dialog.StepPreservesDisplayed` | qCC/ccBoundingBoxEditorDlg.cpp:42-54 | every event of either dispatch, except the program's own Cancel, keeps the spin boxes showing the current box and the box a cube in square mode |
| `Dialog.StepPreservesInv` | qCC/ccBoundingBoxEditorDlg.cpp:42-54 | every event of the corrected dialog keeps the spin boxes, the square constraint and the OK button consistent with the boxes; in the program itself this holds for every event except switching square mode on (check box or `forceKeepSquare(true)`) and Cancel |
| `Dialog.RunAppend` | qCC/ccBoundingBoxEditorDlg.cpp:42-54 | running two event sequences one after the other is running their concatenation |
| `Dialog.RunPreservesInv` | qCC/ccBoundingBoxEditorDlg.cpp:301-303 | after any sequence of events of the corrected dialog, the dialog is consistent, so the three widths shown are equal whenever square mode is on. In the program itself this holds for sequences that never switch square mode on and never cancel (see the discrepancies below) |
| `Dialog.RunPreservesDisplayed` | qCC/ccBoundingBoxEditorDlg.cpp:301-303 | in the program itself, any sequence of events without Cancel keeps the spin boxes showing the current box and the box a cube in square mode, so the assertion in `reflectChanges` holds; the corrected dialog does so for every sequence |
| `Dialog.SquareModeKeepsOkSafe` | qCC/ccBoundingBoxEditorDlg.cpp:116-123 | switching square mode on with the program's own slot never leaves OK enabled on a box that excludes a valid base box, because squaring on the largest width only grows the box |
| `Dialog.StepKeepsOkSafe` | qCC/ccBoundingBoxEditorDlg.cpp:182-249 | in the program itself, every event except Cancel keeps OK enabled only for a base box that is invalid or enclosed, as the "base box should always be included" comments of the width and point slots promise, and keeps the spin boxes showing the box |
| `Dialog.RunKeepsOkSafe` | qCC/ccBoundingBoxEditorDlg.cpp:182-249 | in the program itself, after any sequence of events without Cancel, OK is enabled only if the current box encloses both corners of a valid base box |
| `Dialog.RunKeepsInit` | qCC/ccBoundingBoxEditorDlg.cpp:165-180 | with either dispatch, only `exec` and `setBaseBBox` change the remembered initial box |
| `Dialog.ExecEditCancelRestores` | qCC/ccBoundingBoxEditorDlg.cpp:165-180 | in the program itself, the run `exec`, then any events other than `exec` and `setBaseBBox`, then `cancel` ends with the box held before `exec` |
| `Dialog.ExecEditCancelRefreshedRestores` | qCC/ccBoundingBoxEditorDlg.cpp:165-180 | in the corrected dialog, the same run from a consistent state ends with the box held before `exec`, provided square mode was not switched on in between |
| `Dialog.SquareModeLeavesOkStale` | qCC/ccBoundingBoxEditorDlg.cpp:116-123 | a consistent state in which switching square on encloses the base box while OK stays disabled |
| `Dialog.SquareModeRecheckedKeepsInv` | qCC/ccBoundingBoxEditorDlg.cpp:116-123 | with the corrected slot, switching square on keeps the dialog consistent |
| `Dialog.CancelLeavesFieldsStale` | qCC/ccBoundingBoxEditorDlg.cpp:174-180 | a consistent state in which `cancel` leaves the spin boxes showing an abandoned width, which the next edit after re-`exec` puts back into the box |
| `Dialog.CancelLeavesOkStale` | qCC/ccBoundingBoxEditorDlg.cpp:174-180 | a consistent state with OK disabled in which widening the box and then `cancel` restores the narrow box with OK still enabled, so that after the next `exec` OK accepts a box that excludes the base box |
| `Dialog.CancelBreaksSquareMode` | qCC/ccBoundingBoxEditorDlg.cpp:174-180 | a consistent state in which `exec`, switching square on with the program's own slot, and `cancel` leave square mode on with a box that is not a cube |
| `Dialog.CancelRefreshedKeepsInv` | qCC/ccBoundingBoxEditorDlg.cpp:174-180 | the corrected cancel leaves the dialog consistent, with a cube in square mode |

## Left out

- Qt widget plumbing is not modelled. This covers `setupUi`, `setWindowFlags`, the signal connections beyond their dispatch in `Step`, `blockSignals`, and the visibility of the reset button and the z widgets (`set2DMode`). The warning label is modelled only as the negation of the OK flag.
- `keepSquare()` is a check-box read; the model holds the flag directly in the state.
- The disabling of the check box by `forceKeepSquare` is left out; only its effect of switching square mode on is modelled.
- The modal loop of `QDialog::exec`, its return value, and `accept`/`reject` are left out. `accept` does not change the box state.
- The `-DBL_MAX..DBL_MAX` range of the coordinate spin boxes is left out, because coordinates are unbounded reals.
- Floating-point rounding of `CCVector3` and the decimal rounding of spin boxes are left out. Reals are exact, so the round trip and the kept center hold exactly here; with IEEE doubles they hold only approximately.
- `ccBBox` is not part of this model. Its constructor, `getCenter`, `getDiagVec`, `inside` and `isValid` follow the assumptions stated above.
- The form file that sets the initial pivot type and check-box state is not part of this model. `Dialog.Initial` takes both as parameters.
- `Dialog.Initial` assumes that all six spin boxes start at 0, since their initial values also come from that form file. Its consistency result depends on this.
- The `DBL_MAX` maximum of the width spin boxes (lines 38-40) is left out. Only their minimum of 0 is modelled.
- The `assert(false)` branches for an out-of-range pivot type, and the asserts at the top of `MakeSquare`, become preconditions: the pivot type must be in `0..2` and `defaultDim` below 3.

## Findings

| source | as written | input that shows it | evidently intended | confidence | as-written member | corrected member |
|---|---|---|---|---|---|---|
| qCC/ccBoundingBoxEditorDlg.cpp:116-123 | `squareModeActivated` squares the box but does not call `checkBaseInclusion`. The width slots do re-check after squaring (lines 189-191). | Pivot type 0. Base box valid, (0,0,0)-(1,1,1). Current box (0,0,0)-(2,0.5,1), so OK is disabled. Switching square on gives (0,0,0)-(2,2,2), which encloses the base, yet OK stays disabled. | re-check the base box after squaring | medium, not executed | `Dialog.SquareModeLeavesOkStale` | `Dialog.SquareModeActivatedRechecked` |
| qCC/ccBoundingBoxEditorDlg.cpp:174-180 | `cancel` restores the box but not the spin boxes. | Box (0,0,0)-(1,1,1), pivot 0. `exec`, then set dx to 5, then `cancel`: dx still shows 5. After a second `exec`, setting x to 0.5 rebuilds the box with x width 5. | refresh the widgets from the restored box | low, not executed | `Dialog.CancelLeavesFieldsStale` | `Dialog.CancelRefreshed` |
| qCC/ccBoundingBoxEditorDlg.cpp:174-180 | `cancel` restores the box but not the OK button. | Pivot type 0. Base box valid, (0,0,0)-(1,1,1). Current box (0,0,0)-(0.5,1,1), so OK is disabled. `exec`, then set dx to 1 (OK enabled), then `cancel`: the box is back to (0,0,0)-(0.5,1,1) with OK still enabled. After a second `exec`, OK accepts a box that excludes part of the base box. | re-check the base box after restoring | medium, not executed | `Dialog.CancelLeavesOkStale` | `Dialog.CancelRefreshed` |
| qCC/ccBoundingBoxEditorDlg.cpp:174-180 | `cancel` restores a non-cubic box while square mode stays on. Most later events square the box before showing it (reset, `setBaseBBox`, width edits in square mode), and a point edit rebuilds it from the still-uniform widths shown. A pivot change after the next `exec`, however, calls `reflectChanges` on the non-cubic box, and the assertion at line 303 fails. | Box (0,0,0)-(2,1,1), square mode off. `exec`, then switch square on, then `cancel`. Then `exec` again and change the pivot type. | keep the restored box consistent with square mode | low, not executed | `Dialog.CancelBreaksSquareMode` | `Dialog.CancelRefreshed` |

=== FILE: bbox.dfy ===
/**
  Axis-aligned bounding boxes, standing in for CloudCompare's `ccBBox`.

  `ccBBox` itself belongs to a geometry library that is not part of this model.
  The definitions below are the assumed simple ones: the two-corner constructor
  stores the corners as given and marks the box valid, the center is the
  midpoint of the corners, the diagonal vector is `max - min`, and `inside` is
  inclusive component-wise containment. A default-constructed box is invalid
  with both corners at the origin.
 */
module BBox {
  import opened Vector

  /** A box given by its min corner `lo`, its max corner `hi` and its validity flag. */
  datatype Box = Box(lo: Vec3, hi: Vec3, valid: bool)

  /** `ccBBox()`: the default, invalid box. */
  const Empty := Box(Zero, Zero, false)

  /** `ccBBox(A, B)`: a valid box with min corner `a` and max corner `b`. */
  function Make(a: Vec3, b: Vec3): Box {
    Box(a, b, true)
  }

  /** `getCenter()`. */
  function Center(b: Box): Vec3 {
    Half(Add(b.lo, b.hi))
  }

  /** `getDiagVec()`: the extent of the box along each axis. */
  function Diag(b: Box): Vec3 {
    Sub(b.hi, b.lo)
  }

  /** `inside(p)`: `p` lies in the closed box. */
  predicate Inside(b: Box, p: Vec3) {
    LessEq(b.lo, p) && LessEq(p, b.hi)
  }

  /** The min corner is nowhere above the max corner. */
  predicate WellFormed(b: Box) {
    LessEq(b.lo, b.hi)
  }

  /** The three extents are equal. */
  predicate IsCube(b: Box) {
    IsUniform(Diag(b))
  }

  /** Every point of `inner` is a point of `outer`. */
  ghost predicate Encloses(outer: Box, inner: Box) {
    forall p :: Inside(inner, p) ==> Inside(outer, p)
  }

  /**
    For a well-formed box, testing its two corners against `outer` is the
    same as testing all of its points: this is why the dialog only checks
    the base box's min and max corners.
   */
  lemma CornersDecideEnclosure(outer: Box, inner: Box)
    requires WellFormed(inner)
    ensures Inside(outer, inner.lo) && Inside(outer, inner.hi) <==> Encloses(outer, inner)
  {
    if Encloses(outer, inner) {
      assert Inside(inner, inner.lo);
      assert Inside(inner, inner.hi);
    }
  }
}

=== FILE: dialog.dfy ===
/**
  The box state of `ccBoundingBoxEditorDlg`: the current, initial and base
  boxes, the six spin-box values, the pivot combo box, the "keep square"
  check box and the enabled state of the OK button (the warning label is
  visible exactly when OK is disabled). Every slot of the dialog becomes a
  pure function from state to state; Qt widgets, signal blocking and the
  modal event loop are abstracted away.
 */
module Dialog {
  import opened Vector
  import opened BBox
  import opened PivotGeometry

  datatype State = State(
    current: Box,
    init: Box,
    base: Box,
    fields: Fields,
    pivot: int,
    keepSquare: bool,
    okEnabled: bool)

  /**
    The display half of the dialog's consistency: the spin boxes show the
    current box, and square mode implies a cubic box (the assertion in
    `reflectChanges`).
   */
  predicate Displayed(s: State) {
    && 0 <= s.pivot < 3
    && s.fields == Reflect(s.current, s.pivot)
    && (s.keepSquare ==> IsCube(s.current))
  }

  /**
    The full consistency the dialog aims at: the display half, and OK
    enabled exactly when the base box is still enclosed.
   */
  predicate Inv(s: State) {
    Displayed(s) && s.okEnabled == InclusionOk(s.current, s.base)
  }

  /**
    The constructed dialog: default (invalid) boxes, spin boxes at zero, and
    the inclusion check run once. The initial pivot type and check-box state
    come from the dialog's form file, which is not part of this model, so
    they are parameters.
   */
  function Initial(pivot: int, keepSquare: bool): (s: State)
    requires 0 <= pivot < 3
    ensures Inv(s)
    ensures s.okEnabled
  {
    var s := State(Empty, Empty, Empty, Fields(Zero, Zero), pivot, keepSquare, true);
    assert Diag(Empty) == Zero;
    assert PivotPoint(Empty, pivot) == Zero;
    s
  }

  /** `checkBaseInclusion`: OK is enabled iff the base box is invalid or enclosed. */
  function CheckBaseInclusion(s: State): (r: State)
    ensures r.okEnabled <==> !s.base.valid || (Inside(s.current, s.base.lo) && Inside(s.current, s.base.hi))
    ensures r == s.(okEnabled := r.okEnabled)
  {
    s.(okEnabled := InclusionOk(s.current, s.base))
  }

  /** `reflectChanges`: show the current box in the spin boxes. */
  function ReflectChanges(s: State): (r: State)
    requires 0 <= s.pivot < 3
    ensures PivotPoint(s.current, s.pivot) == r.fields.point
    ensures WellFormed(s.current) ==> Diag(s.current) == r.fields.widths
    ensures r == s.(fields := r.fields)
  {
    s.(fields := Reflect(s.current, s.pivot))
  }

  /**
    `updateCurrentBBox`: rebuild the current box from the six spin boxes,
    then re-check the base box if it is valid.
   */
  function UpdateCurrentBBox(s: State): (r: State)
    requires 0 <= s.pivot < 3
    ensures PivotPoint(r.current, s.pivot) == s.fields.point
    ensures Diag(r.current) == s.fields.widths
    ensures s.base.valid ==> r.okEnabled == InclusionOk(r.current, s.base)
    ensures !s.base.valid ==> r.okEnabled == s.okEnabled
    ensures r == s.(current := r.current, okEnabled := r.okEnabled)
  {
    var t := s.(current := BoxFromPivot(s.pivot, s.fields.point, s.fields.widths));
    if s.base.valid then CheckBaseInclusion(t) else t
  }

  /**
    `updateXWidth`, `updateYWidth`, `updateZWidth`: rebuild the box; in square
    mode make it a cube of side the width just edited (`axis` 0, 1, 2) about
    the pivot, show it, and re-check the base box if it is valid.
   */
  function UpdateWidth(s: State, axis: int): (r: State)
    requires 0 <= s.pivot < 3
    requires 0 <= axis < 3
    ensures s.keepSquare ==> Diag(r.current) == Uniform(At(s.fields.widths, axis))
    ensures !s.keepSquare ==> r == UpdateCurrentBBox(s)
    ensures PivotPoint(r.current, s.pivot) == s.fields.point
    ensures s.keepSquare ==> r.fields == Reflect(r.current, s.pivot)
    ensures s.keepSquare && s.base.valid ==> r.okEnabled == InclusionOk(r.current, s.base)
    ensures s.keepSquare && !s.base.valid ==> r.okEnabled == s.okEnabled
    ensures r == s.(current := r.current, fields := r.fields, okEnabled := r.okEnabled)
  {
    var t := UpdateCurrentBBox(s);
    if s.keepSquare then
      var u := ReflectChanges(t.(current := MakeSquare(t.current, t.pivot, axis)));
      if u.base.valid then CheckBaseInclusion(u) else u
    else t
  }

  /**
    `squareModeActivated`, as written: when square mode is switched on, square
    the current box on its largest width and show it. The OK button is left
    as it was.
   */
  function SquareModeActivated(s: State, state: bool): (r: State)
    requires 0 <= s.pivot < 3
    ensures state ==> IsCube(r.current) && PivotPoint(r.current, s.pivot) == PivotPoint(s.current, s.pivot)
    ensures state ==> Diag(r.current) == Uniform(Max3(Diag(s.current)))
    ensures state ==> r.fields == Reflect(r.current, s.pivot)
    ensures r == s.(current := r.current, fields := r.fields)
    ensures !state ==> r == s
  {
    if state then ReflectChanges(s.(current := MakeSquare(s.current, s.pivot, -1)))
    else s
  }

  /**
    `squareModeActivated` as evidently intended: the width slots re-check the
    base box after squaring, and this slot does so too.
   */
  function SquareModeActivatedRechecked(s: State, state: bool): (r: State)
    requires 0 <= s.pivot < 3
    ensures state ==> IsCube(r.current) && PivotPoint(r.current, s.pivot) == PivotPoint(s.current, s.pivot)
    ensures state ==> Diag(r.current) == Uniform(Max3(Diag(s.current)))
    ensures state ==> r.fields == Reflect(r.current, s.pivot)
    ensures state ==> r.okEnabled == InclusionOk(r.current, r.base)
    ensures r == s.(current := r.current, fields := r.fields, okEnabled := r.okEnabled)
    ensures !state ==> r == s
  {
    var t := SquareModeActivated(s, state);
    if state then CheckBaseInclusion(t) else t
  }

  /**
    Refresh the widgets after the current box was replaced, as `reset` does:
    square it when square mode is on, show it, and re-check the base box.
   */
  function Refresh(s: State): (r: State)
    requires 0 <= s.pivot < 3
    ensures Inv(r)
    ensures !s.keepSquare || IsCube(s.current) ==> r.current == s.current
    ensures s.keepSquare ==> r.current == MakeSquare(s.current, s.pivot, -1)
    ensures r == s.(current := r.current, fields := r.fields, okEnabled := r.okEnabled)
  {
    var t := if s.keepSquare then SquareModeActivated(s, true) else ReflectChanges(s);
    CheckBaseInclusion(t)
  }

  /** `reset`: go back to the base box (squared in square mode). */
  function Reset(s: State): (r: State)
    requires 0 <= s.pivot < 3
    ensures Inv(r)
    ensures !s.keepSquare ==> r.current == s.base
    ensures s.keepSquare ==> r.current == MakeSquare(s.base, s.pivot, -1)
    ensures r == s.(current := r.current, fields := r.fields, okEnabled := r.okEnabled)
  {
    Refresh(s.(current := s.base))
  }

  /** `setBaseBBox`: the given box becomes both the base and the initial box, then reset. */
  function SetBaseBBox(s: State, box: Box): (r: State)
    requires 0 <= s.pivot < 3
    ensures Inv(r)
    ensures !s.keepSquare ==> r.current == box
    ensures s.keepSquare ==> r.current == MakeSquare(box, s.pivot, -1)
    ensures r == s.(init := box, base := box, current := r.current, fields := r.fields, okEnabled := r.okEnabled)
  {
    Reset(s.(init := box, base := box))
  }

  /**
    Right after `setBaseBBox` with a box that is invalid or well-formed, OK is
    enabled: the current box is the base box itself, or in square mode a cube
    grown around it.
   */
  lemma SetBaseBBoxEnablesOk(s: State, box: Box)
    requires 0 <= s.pivot < 3
    requires !box.valid || WellFormed(box)
    ensures SetBaseBBox(s, box).okEnabled
  {
    var r := SetBaseBBox(s, box);
    if box.valid {
      if s.keepSquare {
        MakeSquareOnLargestEncloses(box, s.pivot, -1);
      }
      CornersDecideEnclosure(r.current, box);
      assert Inside(box, box.lo) && Inside(box, box.hi);
    }
  }

  /** `exec`: remember the current box before the modal loop starts. */
  function Exec(s: State): (r: State)
    ensures r.init == s.current
    ensures r == s.(init := r.init)
  {
    s.(init := s.current)
  }

  /** `cancel`, as written: put back the remembered box, nothing else. */
  function Cancel(s: State): (r: State)
    ensures r.current == s.init
    ensures r == s.(current := r.current)
  {
    s.(current := s.init)
  }

  /**
    `cancel` as evidently intended: put back the remembered box and refresh
    the widgets as `reset` does, so that the spin boxes, the square constraint
    and the OK button agree with it.
   */
  function CancelRefreshed(s: State): (r: State)
    requires 0 <= s.pivot < 3
    ensures Inv(r)
    ensures !s.keepSquare || IsCube(s.init) ==> r.current == s.init
    ensures s.keepSquare ==> r.current == MakeSquare(s.init, s.pivot, -1)
    ensures r == s.(current := r.current, fields := r.fields, okEnabled := r.okEnabled)
  {
    Refresh(s.(current := s.init))
  }

  /**
    What the program itself does keep outside Cancel: the display half, and
    OK enabled only when the base box is invalid or enclosed. OK may be
    disabled although the base box is enclosed (square mode switched on
    grows the box without re-checking), but never the other way round.
   */
  predicate OkSafe(s: State) {
    Displayed(s) && (s.okEnabled ==> InclusionOk(s.current, s.base))
  }

  /** The user's actions and the host application's calls into the dialog. */
  datatype Event =
    | EditPoint(axis: int, value: real)   // x, y or z spin box set to `value`
    | EditWidth(axis: int, value: real)   // dx, dy or dz spin box set to `value`
    | ChoosePivot(pivotType: int)         // point-type combo box
    | SetKeepSquare(on: bool)             // keep-square check box
    | ForceKeepSquare(state: bool)        // `forceKeepSquare`
    | ResetPressed
    | SetBase(box: Box)
    | ExecCalled
    | CancelPressed

  /**
    What the widgets can deliver: an axis index, a width no smaller than the
    width spin boxes' minimum of 0, a combo box index among the three
    entries.
   */
  predicate EventOk(e: Event) {
    match e
    case EditPoint(axis, _) => 0 <= axis < 3
    case EditWidth(axis, value) => 0 <= axis < 3 && value >= 0.0
    case ChoosePivot(p) => 0 <= p < 3
    case _ => true
  }

  /**
    Which square-mode and cancel slots the events reach: the program's own
    (`AsWritten`: `squareModeActivated` and `cancel` as in the source), or
    the corrected ones described with the discrepancies below.
   */
  datatype Slots = AsWritten | Corrected

  /** The events whose slot differs between the two dispatches. */
  predicate ReachesCorrectedSlot(e: Event) {
    e.SetKeepSquare? || e.ForceKeepSquare? || e.CancelPressed?
  }

  /**
    The events after which the program's own slots can leave OK disagreeing
    with the base box: switching square mode on, and cancel.
   */
  predicate MayLeaveOkStale(e: Event) {
    (e.SetKeepSquare? && e.on) || (e.ForceKeepSquare? && e.state) || e.CancelPressed?
  }

  /** The slot the keep-square check box's `toggled` signal reaches. */
  function SquareSlot(s: State, state: bool, slots: Slots): (r: State)
    requires 0 <= s.pivot < 3
    ensures r.pivot == s.pivot
  {
    if slots.Corrected? then SquareModeActivatedRechecked(s, state) else SquareModeActivated(s, state)
  }

  /** The slot the Cancel button's `clicked` signal reaches. */
  function CancelSlot(s: State, slots: Slots): (r: State)
    requires 0 <= s.pivot < 3
    ensures r.pivot == s.pivot && r.init == s.init
  {
    if slots.Corrected? then CancelRefreshed(s) else Cancel(s)
  }

  /**
    One event, dispatched as the signal connections of the constructor do.
    Qt reports a spin box, combo box or check box change only when the value
    actually changes. With `AsWritten` this is the program's own dialog.
   */
  function Step(s: State, e: Event, slots: Slots): (r: State)
    requires 0 <= s.pivot < 3
    requires EventOk(e)
    ensures 0 <= r.pivot < 3
    ensures KeepsInit(e) ==> r.init == s.init
  {
    match e
    case EditPoint(axis, v) =>
      if v == At(s.fields.point, axis) then s
      else UpdateCurrentBBox(s.(fields := s.fields.(point := With(s.fields.point, axis, v))))
    case EditWidth(axis, v) =>
      if v == At(s.fields.widths, axis) then s
      else UpdateWidth(s.(fields := s.fields.(widths := With(s.fields.widths, axis, v))), axis)
    case ChoosePivot(p) =>
      if p == s.pivot then s else ReflectChanges(s.(pivot := p))
    case SetKeepSquare(on) =>
      if on == s.keepSquare then s else SquareSlot(s.(keepSquare := on), on, slots)
    case ForceKeepSquare(state) =>
      if state && !s.keepSquare then SquareSlot(s.(keepSquare := true), true, slots) else s
    case ResetPressed => Reset(s)
    case SetBase(box) => SetBaseBBox(s, box)
    case ExecCalled => Exec(s)
    case CancelPressed => CancelSlot(s, slots)
  }

  /** Apart from the keep-square and cancel slots, both dispatches are the program's. */
  lemma StepDispatchesAlike(s: State, e: Event)
    requires 0 <= s.pivot < 3
    requires EventOk(e)
    requires !ReachesCorrectedSlot(e)
    ensures Step(s, e, AsWritten) == Step(s, e, Corrected)
  {
  }

  /**
    Every event but the program's own cancel keeps the spin boxes showing the
    current box and keeps the box a cube in square mode.
   */
  lemma StepPreservesDisplayed(s: State, e: Event, slots: Slots)
    requires Displayed(s)
    requires EventOk(e)
    requires slots.Corrected? || !e.CancelPressed?
    ensures Displayed(Step(s, e, slots))
  {
    match e
    case EditPoint(axis, v) =>
      var t := s.(fields := s.fields.(point := With(s.fields.point, axis, v)));
      ReflectInvertsBoxFromPivot(s.pivot, t.fields.point, t.fields.widths);
    case EditWidth(axis, v) =>
      var t := s.(fields := s.fields.(widths := With(s.fields.widths, axis, v)));
      ReflectInvertsBoxFromPivot(s.pivot, t.fields.point, t.fields.widths);
    case _ =>
  }

  /**
    Every event of the corrected dialog keeps the widgets consistent with the
    boxes; so does every event of the program itself except switching square
    mode on and cancel.
   */
  lemma StepPreservesInv(s: State, e: Event, slots: Slots)
    requires Inv(s)
    requires EventOk(e)
    requires slots.Corrected? || !MayLeaveOkStale(e)
    ensures Inv(Step(s, e, slots))
  {
    match e
    case EditPoint(axis, v) =>
      var t := s.(fields := s.fields.(point := With(s.fields.point, axis, v)));
      ReflectInvertsBoxFromPivot(s.pivot, t.fields.point, t.fields.widths);
    case EditWidth(axis, v) =>
      var t := s.(fields := s.fields.(widths := With(s.fields.widths, axis, v)));
      ReflectInvertsBoxFromPivot(s.pivot, t.fields.point, t.fields.widths);
    case _ =>
  }

  predicate AllEventsOk(evs: seq<Event>) {
    forall i :: 0 <= i < |evs| ==> EventOk(evs[i])
  }

  /** The dialog after a sequence of events. */
  function Run(s: State, evs: seq<Event>, slots: Slots): (r: State)
    requires 0 <= s.pivot < 3
    requires AllEventsOk(evs)
    ensures 0 <= r.pivot < 3
    decreases |evs|
  {
    if |evs| == 0 then s else Run(Step(s, evs[0], slots), evs[1..], slots)
  }

  /** Running two sequences one after the other is running their concatenation. */
  lemma {:induction false} RunAppend(s: State, a: seq<Event>, b: seq<Event>, slots: Slots)
    requires 0 <= s.pivot < 3
    requires AllEventsOk(a) && AllEventsOk(b)
    ensures AllEventsOk(a + b)
    ensures Run(s, a + b, slots) == Run(Run(s, a, slots), b, slots)
    decreases |a|
  {
    if |a| == 0 {
      assert a + b == b;
    } else {
      assert (a + b)[0] == a[0];
      assert (a + b)[1..] == a[1..] + b;
      RunAppend(Step(s, a[0], slots), a[1..], b, slots);
    }
  }

  /**
    From any state whose spin boxes show the current box, and in particular
    from the constructed dialog, every sequence of events without the
    program's own cancel keeps them so and keeps the box a cube in square
    mode: whenever square mode is on the three widths shown are equal, and
    the assertion in `reflectChanges` holds.
   */
  lemma {:induction false} RunPreservesDisplayed(s: State, evs: seq<Event>, slots: Slots)
    requires Displayed(s)
    requires AllEventsOk(evs)
    requires slots.Corrected? || forall i :: 0 <= i < |evs| ==> !evs[i].CancelPressed?
    ensures Displayed(Run(s, evs, slots))
    ensures Run(s, evs, slots).keepSquare ==> IsUniform(Run(s, evs, slots).fields.widths)
    decreases |evs|
  {
    if |evs| > 0 {
      StepPreservesDisplayed(s, evs[0], slots);
      assert slots.Corrected? || forall i :: 0 <= i < |evs[1..]| ==> !evs[1..][i].CancelPressed? by {
        if !slots.Corrected? {
          forall i | 0 <= i < |evs[1..]| ensures !evs[1..][i].CancelPressed? {
            assert evs[1..][i] == evs[i + 1];
          }
        }
      }
      RunPreservesDisplayed(Step(s, evs[0], slots), evs[1..], slots);
    }
  }

  /**
    From any consistent state, and in particular from the constructed dialog,
    every sequence of events of the corrected dialog keeps the widgets
    consistent, so that whenever square mode is on the three widths shown
    are equal. For the program itself this holds of the sequences that never
    switch square mode on and never cancel.
   */
  lemma {:induction false} RunPreservesInv(s: State, evs: seq<Event>, slots: Slots)
    requires Inv(s)
    requires AllEventsOk(evs)
    requires slots.Corrected? || forall i :: 0 <= i < |evs| ==> !MayLeaveOkStale(evs[i])
    ensures Inv(Run(s, evs, slots))
    ensures Run(s, evs, slots).keepSquare ==> IsUniform(Run(s, evs, slots).fields.widths)
    decreases |evs|
  {
    if |evs| > 0 {
      StepPreservesInv(s, evs[0], slots);
      assert slots.Corrected? || forall i :: 0 <= i < |evs[1..]| ==> !MayLeaveOkStale(evs[1..][i]) by {
        if !slots.Corrected? {
          forall i | 0 <= i < |evs[1..]| ensures !MayLeaveOkStale(evs[1..][i]) {
            assert evs[1..][i] == evs[i + 1];
          }
        }
      }
      RunPreservesInv(Step(s, evs[0], slots), evs[1..], slots);
    }
  }

  /**
    Switching square mode on with the program's own slot never enables OK
    wrongly: the box is squared on its largest width, which only grows it.
   */
  lemma SquareModeKeepsOkSafe(s: State)
    requires OkSafe(s)
    ensures OkSafe(SquareModeActivated(s.(keepSquare := true), true))
  {
    var r := SquareModeActivated(s.(keepSquare := true), true);
    if s.okEnabled && s.base.valid {
      assert Inside(s.current, s.base.lo);
      MakeSquareOnLargestEncloses(s.current, s.pivot, -1);
      assert Inside(r.current, s.base.lo);
      assert Inside(r.current, s.base.hi);
    }
  }

  /**
    In the program itself, every event but Cancel keeps `OkSafe`: OK is never
    left enabled on a box that excludes a valid base box.
   */
  lemma StepKeepsOkSafe(s: State, e: Event)
    requires OkSafe(s)
    requires EventOk(e)
    requires !e.CancelPressed?
    ensures OkSafe(Step(s, e, AsWritten))
  {
    StepPreservesDisplayed(s, e, AsWritten);
    match e
    case SetKeepSquare(on) =>
      if on && !s.keepSquare {
        SquareModeKeepsOkSafe(s);
      }
    case ForceKeepSquare(st) =>
      if st && !s.keepSquare {
        SquareModeKeepsOkSafe(s);
      }
    case _ =>
  }

  /**
    In the program itself, from any `OkSafe` state, and in particular from the
    constructed dialog, no sequence of events without Cancel leaves OK
    enabled on a box that excludes a valid base box.
   */
  lemma {:induction false} RunKeepsOkSafe(s: State, evs: seq<Event>)
    requires OkSafe(s)
    requires AllEventsOk(evs)
    requires forall i :: 0 <= i < |evs| ==> !evs[i].CancelPressed?
    ensures OkSafe(Run(s, evs, AsWritten))
    ensures Run(s, evs, AsWritten).okEnabled ==> InclusionOk(Run(s, evs, AsWritten).current, Run(s, evs, AsWritten).base)
    decreases |evs|
  {
    if |evs| > 0 {
      StepKeepsOkSafe(s, evs[0]);
      forall i | 0 <= i < |evs[1..]| ensures !evs[1..][i].CancelPressed? {
        assert evs[1..][i] == evs[i + 1];
      }
      RunKeepsOkSafe(Step(s, evs[0], AsWritten), evs[1..]);
    }
  }

  /** Events that leave the remembered box alone: everything but `exec` and `setBaseBBox`. */
  predicate KeepsInit(e: Event) {
    !e.ExecCalled? && !e.SetBase?
  }

  lemma {:induction false} RunKeepsInit(s: State, evs: seq<Event>, slots: Slots)
    requires 0 <= s.pivot < 3
    requires AllEventsOk(evs)
    requires forall i :: 0 <= i < |evs| ==> KeepsInit(evs[i])
    ensures Run(s, evs, slots).init == s.init
    decreases |evs|
  {
    if |evs| > 0 {
      RunKeepsInit(Step(s, evs[0], slots), evs[1..], slots);
    }
  }

  /**
    In the program itself, `exec` followed by any events that leave the
    remembered box alone and then `cancel` gives back the box the dialog
    held before `exec`.
   */
  lemma ExecEditCancelRestores(s: State, evs: seq<Event>)
    requires 0 <= s.pivot < 3
    requires AllEventsOk(evs)
    requires forall i :: 0 <= i < |evs| ==> KeepsInit(evs[i])
    ensures AllEventsOk([ExecCalled] + evs + [CancelPressed])
    ensures Run(s, [ExecCalled] + evs + [CancelPressed], AsWritten).current == s.current
  {
    ExecRunCancel(s, evs, AsWritten);
  }

  /**
    In the corrected dialog the same holds from a consistent state, provided
    square mode was not switched on in between (otherwise the restored box
    is squared).
   */
  lemma ExecEditCancelRefreshedRestores(s: State, evs: seq<Event>)
    requires Inv(s)
    requires AllEventsOk(evs)
    requires forall i :: 0 <= i < |evs| ==> KeepsInit(evs[i])
    ensures AllEventsOk([ExecCalled] + evs + [CancelPressed])
    ensures (Run(Exec(s), evs, Corrected).keepSquare ==> s.keepSquare) ==>
              Run(s, [ExecCalled] + evs + [CancelPressed], Corrected).current == s.current
  {
    ExecRunCancel(s, evs, Corrected);
  }

  /** Splits the run `exec; evs; cancel` into its three parts. */
  lemma ExecRunCancel(s: State, evs: seq<Event>, slots: Slots)
    requires 0 <= s.pivot < 3
    requires AllEventsOk(evs)
    requires forall i :: 0 <= i < |evs| ==> KeepsInit(evs[i])
    ensures AllEventsOk([ExecCalled] + evs + [CancelPressed])
    ensures Run(Exec(s), evs, slots).init == s.current
    ensures Run(s, [ExecCalled] + evs + [CancelPressed], slots)
         == CancelSlot(Run(Exec(s), evs, slots), slots)
  {
    RunAppend(s, [ExecCalled], evs, slots);
    RunAppend(s, [ExecCalled] + evs, [CancelPressed], slots);
    assert Run(s, [ExecCalled], slots) == Run(Exec(s), [], slots);
    RunKeepsInit(Exec(s), evs, slots);
    var t := Run(Exec(s), evs, slots);
    assert Run(t, [CancelPressed], slots) == Run(CancelSlot(t, slots), [], slots);
  }

  // ---------------------------------------------------------------------------
  // Discrepancies between the slots as written and the dialog's consistency.
  // ---------------------------------------------------------------------------

  /**
    Switching square mode on grows the box, which can bring the base box
    inside it; the slot as written does not re-check, so OK stays disabled
    although the base box is enclosed.
   */
  lemma SquareModeLeavesOkStale() returns (s: State, r: State)
    ensures Inv(s) && !s.keepSquare
    ensures r == SquareModeActivated(s.(keepSquare := true), true)
    ensures !r.okEnabled && InclusionOk(r.current, r.base)
  {
    var cur := Make(Zero, Vec3(2.0, 0.5, 1.0));
    var base := Make(Zero, Vec3(1.0, 1.0, 1.0));
    s := State(cur, cur, base, Fields(Zero, Vec3(2.0, 0.5, 1.0)), PivotMin, false, false);
    assert Diag(cur) == Vec3(2.0, 0.5, 1.0);
    assert Reflect(cur, PivotMin) == s.fields;
    r := SquareModeActivated(s.(keepSquare := true), true);
    assert r.current == Make(Zero, Vec3(2.0, 2.0, 2.0));
  }

  /** With the corrected slot, switching square mode on keeps the dialog consistent. */
  lemma SquareModeRecheckedKeepsInv(s: State)
    requires Inv(s)
    ensures Inv(SquareModeActivatedRechecked(s.(keepSquare := true), true))
  {
  }

  /**
    The cancel slot as written leaves the spin boxes showing the abandoned
    edit (here, x width 1 changed to 5). When the dialog is executed again,
    editing one coordinate rebuilds the box from all six spin boxes and
    brings the abandoned width back.
   */
  lemma CancelLeavesFieldsStale() returns (s: State, c: State, r: State)
    ensures Inv(s) && Diag(s.current).x == 1.0
    ensures c == Cancel(UpdateWidth(Exec(s).(fields := Fields(Zero, Vec3(5.0, 1.0, 1.0))), 0))
    ensures c.current == s.current && c.fields != Reflect(c.current, c.pivot)
    ensures r == UpdateCurrentBBox(Exec(c).(fields := Fields(Vec3(0.5, 0.0, 0.0), c.fields.widths)))
    ensures Diag(r.current).x == 5.0
  {
    var cur := Make(Zero, Vec3(1.0, 1.0, 1.0));
    s := State(cur, cur, Empty, Fields(Zero, Vec3(1.0, 1.0, 1.0)), PivotMin, false, true);
    assert Diag(cur) == Vec3(1.0, 1.0, 1.0);
    assert Reflect(cur, PivotMin) == s.fields;
    var u := UpdateWidth(Exec(s).(fields := Fields(Zero, Vec3(5.0, 1.0, 1.0))), 0);
    assert u.fields.widths == Vec3(5.0, 1.0, 1.0) && u.init == cur;
    c := Cancel(u);
    r := UpdateCurrentBBox(Exec(c).(fields := Fields(Vec3(0.5, 0.0, 0.0), c.fields.widths)));
  }

  /**
    The cancel slot as written also leaves the OK button as the abandoned
    edit set it: a box that does not enclose the base box (x width 0.5) is
    widened to enclose it, which enables OK, and cancel puts the narrow box
    back with OK still enabled. After the next `exec`, OK accepts a box that
    excludes part of the base box.
   */
  lemma CancelLeavesOkStale() returns (s: State, c: State)
    ensures Inv(s) && s.base.valid && !s.okEnabled
    ensures c == Cancel(UpdateWidth(Exec(s).(fields := Fields(Zero, Vec3(1.0, 1.0, 1.0))), 0))
    ensures c.current == s.current
    ensures Exec(c).okEnabled && !InclusionOk(Exec(c).current, Exec(c).base)
  {
    var cur := Make(Zero, Vec3(0.5, 1.0, 1.0));
    var base := Make(Zero, Vec3(1.0, 1.0, 1.0));
    s := State(cur, cur, base, Fields(Zero, Vec3(0.5, 1.0, 1.0)), PivotMin, false, false);
    assert Diag(cur) == Vec3(0.5, 1.0, 1.0);
    assert Reflect(cur, PivotMin) == s.fields;
    assert !Inside(cur, base.hi);
    var u := UpdateWidth(Exec(s).(fields := Fields(Zero, Vec3(1.0, 1.0, 1.0))), 0);
    assert u.current == base && u.okEnabled;
    c := Cancel(u);
  }

  /**
    The cancel slot as written can also leave square mode on with a box that
    is not a cube (square mode switched on after `exec`), which the assertion
    in `reflectChanges` forbids.
   */
  lemma CancelBreaksSquareMode() returns (s: State, c: State)
    ensures Inv(s) && !s.keepSquare
    ensures c == Cancel(SquareModeActivated(Exec(s).(keepSquare := true), true))
    ensures c.keepSquare && !IsCube(c.current)
  {
    var cur := Make(Zero, Vec3(2.0, 1.0, 1.0));
    s := State(cur, cur, Empty, Fields(Zero, Vec3(2.0, 1.0, 1.0)), PivotMin, false, true);
    assert Diag(cur) == Vec3(2.0, 1.0, 1.0);
    assert Reflect(cur, PivotMin) == s.fields;
    c := Cancel(SquareModeActivated(Exec(s).(keepSquare := true), true));
  }

  /** The corrected cancel slot restores consistency from any state. */
  lemma CancelRefreshedKeepsInv(s: State)
    requires Inv(s)
    ensures Inv(CancelRefreshed(s))
    ensures s.keepSquare ==> IsCube(CancelRefreshed(s).current)
  {
  }
}

=== FILE: geometry.dfy ===
/**
  The box arithmetic of the bounding-box editor dialog: turning the six
  spin-box values (a pivot point and three widths) into a box, reading a box
  back into those values, forcing a box to be a cube about its pivot, and
  deciding whether the base box is still enclosed.

  The pivot type is the index of the dialog's "point type" combo box:
  0 means the point is the min corner, 1 the center, 2 the max corner.
 */
module PivotGeometry {
  import opened Vector
  import opened BBox

  const PivotMin := 0
  const PivotCenter := 1
  const PivotMax := 2

  /** The six spin-box values: the pivot point (x, y, z) and the widths (dx, dy, dz). */
  datatype Fields = Fields(point: Vec3, widths: Vec3)

  /**
    `updateCurrentBBox`: the box whose pivot is `a` and whose extents are `w`.
   */
  function BoxFromPivot(pivot: int, a: Vec3, w: Vec3): (r: Box)
    requires 0 <= pivot < 3
    ensures r.valid
    ensures Diag(r) == w
    ensures pivot == PivotMin ==> r.lo == a
    ensures pivot == PivotCenter ==> Center(r) == a
    ensures pivot == PivotMax ==> r.hi == a
    ensures NonNegative(w) ==> WellFormed(r)
  {
    if pivot == PivotMin then Make(a, Add(a, w))
    else if pivot == PivotCenter then Make(Sub(a, Half(w)), Add(a, Half(w)))
    else Make(Sub(a, w), a)
  }

  /** The point the combo box designates: min corner, center or max corner. */
  function PivotPoint(b: Box, pivot: int): Vec3
    requires 0 <= pivot < 3
  {
    if pivot == PivotMin then b.lo
    else if pivot == PivotCenter then Center(b)
    else b.hi
  }

  /**
    `reflectChanges`: the values the six spin boxes show for box `b`. The
    width spin boxes have a minimum of 0, so a negative extent shows as 0.
    For a valid well-formed box the displayed values rebuild exactly `b`.
   */
  function Reflect(b: Box, pivot: int): (f: Fields)
    requires 0 <= pivot < 3
    ensures f.point == PivotPoint(b, pivot)
    ensures NonNegative(f.widths)
    ensures forall d :: 0 <= d < 3 && At(Diag(b), d) >= 0.0 ==> At(f.widths, d) == At(Diag(b), d)
    ensures forall d :: 0 <= d < 3 && At(Diag(b), d) < 0.0 ==> At(f.widths, d) == 0.0
    ensures WellFormed(b) ==> f.widths == Diag(b)
    ensures IsCube(b) ==> IsUniform(f.widths)
    ensures WellFormed(b) && b.valid ==> BoxFromPivot(pivot, f.point, f.widths) == b
  {
    Fields(PivotPoint(b, pivot), ClampToZero(Diag(b)))
  }

  /**
    Reading back a box built from a point and non-negative widths gives that
    point and those widths, whatever the pivot type.
   */
  lemma ReflectInvertsBoxFromPivot(pivot: int, a: Vec3, w: Vec3)
    requires 0 <= pivot < 3
    requires NonNegative(w)
    ensures Reflect(BoxFromPivot(pivot, a, w), pivot) == Fields(a, w)
  {
  }

  /**
    The axis `MakeSquare` picks when no axis is imposed: the first axis whose
    width is the largest.
   */
  function LargestAxis(w: Vec3): (d: int)
    ensures 0 <= d < 3
    ensures forall e :: 0 <= e < 3 ==> At(w, e) <= At(w, d)
    ensures forall e :: 0 <= e < d ==> At(w, e) < At(w, d)
  {
    var d0 := 0;
    var d1 := if w.y > At(w, d0) then 1 else d0;
    if w.z > At(w, d1) then 2 else d1
  }

  /**
    The cube side `MakeSquare` uses: the width along `defaultDim`, or the
    largest width when `defaultDim` is negative.
   */
  function SquareSide(w: Vec3, defaultDim: int): (side: real)
    requires defaultDim < 3
    ensures defaultDim < 0 ==> side == Max3(w)
    ensures 0 <= defaultDim ==> side == At(w, defaultDim)
  {
    At(w, if defaultDim < 0 then LargestAxis(w) else defaultDim)
  }

  /**
    `MakeSquare`: turn `b` into a cube, keeping the pivot designated by
    `pivotType` in place. A box that already is a cube is returned unchanged.
   */
  function MakeSquare(b: Box, pivotType: int, defaultDim: int): (r: Box)
    requires 0 <= pivotType < 3
    requires defaultDim < 3
    ensures IsCube(r)
    ensures IsCube(b) ==> r == b
    ensures !IsCube(b) ==> r.valid
    ensures Diag(r) == Uniform(SquareSide(Diag(b), defaultDim))
    ensures PivotPoint(r, pivotType) == PivotPoint(b, pivotType)
    ensures WellFormed(b) ==> WellFormed(r)
  {
    var w := Diag(b);
    if IsUniform(w) then b
    else
      var newW := Uniform(SquareSide(w, defaultDim));
      if pivotType == PivotMin then Make(b.lo, Add(b.lo, newW))
      else if pivotType == PivotCenter then
        var c := Center(b);
        Make(Sub(c, Half(newW)), Add(c, Half(newW)))
      else Make(Sub(b.hi, newW), b.hi)
  }

  /** Squaring twice is squaring once, whichever axis the second call imposes. */
  lemma MakeSquareIdempotent(b: Box, pivotType: int, d1: int, d2: int)
    requires 0 <= pivotType < 3
    requires d1 < 3 && d2 < 3
    ensures MakeSquare(MakeSquare(b, pivotType, d1), pivotType, d2) == MakeSquare(b, pivotType, d1)
  {
  }

  /**
    Squaring on the largest width only ever grows a well-formed box: the
    result encloses the original.
   */
  lemma MakeSquareOnLargestEncloses(b: Box, pivotType: int, defaultDim: int)
    requires 0 <= pivotType < 3
    requires defaultDim < 0
    requires WellFormed(b)
    ensures Encloses(MakeSquare(b, pivotType, defaultDim), b)
  {
    var r := MakeSquare(b, pivotType, defaultDim);
    var s := Max3(Diag(b));
    assert Diag(r) == Uniform(s);
    assert LessEq(r.lo, b.lo) && LessEq(b.hi, r.hi) by {
      if pivotType == PivotCenter {
        assert Center(r) == Center(b);
      }
    }
    CornersDecideEnclosure(r, b);
  }

  /**
    `checkBaseInclusion`: whether OK is enabled (and the warning hidden).
    An invalid base box imposes nothing; a valid one must have both of its
    corners inside the current box.
   */
  function InclusionOk(current: Box, base: Box): (ok: bool)
    ensures !base.valid ==> ok
    ensures base.valid ==> (ok <==> Inside(current, base.lo) && Inside(current, base.hi))
  {
    var exclude := base.valid && (!Inside(current, base.lo) || !Inside(current, base.hi));
    !exclude
  }

  /**
    For a valid, well-formed base box, OK is enabled exactly when the current
    box encloses the whole base box.
   */
  lemma InclusionOkIffEnclosed(current: Box, base: Box)
    requires base.valid && WellFormed(base)
    ensures InclusionOk(current, base) <==> Encloses(current, base)
  {
    CornersDecideEnclosure(current, base);
  }
}

=== FILE: vector.dfy ===
/**
  Three-component vectors over exact reals, standing in for CloudCompare's
  `CCVector3`. The source works on floats; here every operation is exact, so
  the identities proved about boxes hold without rounding error.
 */
module Vector {

  /** A point or a displacement in 3D space. */
  datatype Vec3 = Vec3(x: real, y: real, z: real)

  /** The origin, also the value of a freshly created vector. */
  const Zero := Vec3(0.0, 0.0, 0.0)

  /** Component `d` of `v`, the source's `v.u[d]`. */
  function At(v: Vec3, d: int): real
    requires 0 <= d < 3
  {
    if d == 0 then v.x else if d == 1 then v.y else v.z
  }

  /** `v` with component `d` replaced by `c`. */
  function With(v: Vec3, d: int, c: real): (r: Vec3)
    requires 0 <= d < 3
    ensures At(r, d) == c
    ensures forall e :: 0 <= e < 3 && e != d ==> At(r, e) == At(v, e)
  {
    if d == 0 then v.(x := c) else if d == 1 then v.(y := c) else v.(z := c)
  }

  function Add(a: Vec3, b: Vec3): Vec3 {
    Vec3(a.x + b.x, a.y + b.y, a.z + b.z)
  }

  function Sub(a: Vec3, b: Vec3): Vec3 {
    Vec3(a.x - b.x, a.y - b.y, a.z - b.z)
  }

  /** `v / 2.0`. */
  function Half(v: Vec3): Vec3 {
    Vec3(v.x / 2.0, v.y / 2.0, v.z / 2.0)
  }

  /** The vector with all three components equal to `c`. */
  function Uniform(c: real): Vec3 {
    Vec3(c, c, c)
  }

  /** All three components are equal. */
  predicate IsUniform(v: Vec3) {
    v.x == v.y && v.x == v.z
  }

  predicate NonNegative(v: Vec3) {
    v.x >= 0.0 && v.y >= 0.0 && v.z >= 0.0
  }

  /** Component-wise `a <= b`. */
  predicate LessEq(a: Vec3, b: Vec3) {
    a.x <= b.x && a.y <= b.y && a.z <= b.z
  }

  /** The largest of the three components. */
  function Max3(v: Vec3): real {
    if v.x >= v.y && v.x >= v.z then v.x
    else if v.y >= v.z then v.y
    else v.z
  }

  /**
    What a spin box whose minimum is 0 shows after being given each component
    of `v`: negative values are raised to 0.
   */
  function ClampToZero(v: Vec3): (r: Vec3)
    ensures NonNegative(r)
    ensures NonNegative(v) ==> r == v
    ensures forall d :: 0 <= d < 3 && At(v, d) >= 0.0 ==> At(r, d) == At(v, d)
    ensures forall d :: 0 <= d < 3 && At(v, d) < 0.0 ==> At(r, d) == 0.0
    ensures IsUniform(v) ==> IsUniform(r)
  {
    Vec3(if v.x < 0.0 then 0.0 else v.x,
         if v.y < 0.0 then 0.0 else v.y,
         if v.z < 0.0 then 0.0 else v.z)
  }
}
